=== FILE: README.md ===
# Roster cache of the attendance service

This project models the roster cache of `app/sheets.js`, written in Dafny.
`getNameList` decides on each call whether to serve the cached member list
or to refresh it from a Google spreadsheet. The durable state is two files:

- `cache.json` holds the roster payload.
- `cache.json.expiry` holds the instant the payload goes stale.

Each call is modelled as one pure transition from the files before the call
to the files after it. The transition also returns the `{data, cached}`
response and the trace of external actions it started. These outside
outcomes are parameters of the model (an `Oracle`):

- whether `authorize` resolves;
- what the ranged read of the sheet returns;
- whether each of the two cache writes succeeds.

Time is an integer count of milliseconds.

Modules:

- `Wrappers`: the `Option` type. It stands for `undefined`/`null` and for a missing file.
- `ParseInt`: JavaScript's `parseInt` without a radix, on unbounded integers.
- `Config`: the `CACHE_EXPIRE_TIME` default (`parseInt(...) || 1`) and the length of an hour.
- `Sheet`: the reply of the spreadsheet service and `fetchGoogleSheet`'s row projection.
- `Effects`: the external actions a call can start.
- `CacheStore`: the two files, and `loadCacheExpiry`, `loadCache`, `saveCache` and `clearCache`.
- `NameList`: `getNameList`, its refresh path, and the properties that relate several calls.

The model follows the code in these behaviours, which a reader might expect to be otherwise:

- Rows are not skipped when their first cell is empty. `row[0]` of an empty row is kept as `undefined` (`None`).
- `clearCache` does not tolerate a missing file. `rmSync` on a missing `cache.json` throws, and the marker is then not removed. This is logged under Findings.
- A refresh fetches only after authorization succeeds. When authorization fails, no fetch happens at all, so an expired call fetches exactly once only when authorization succeeds.
- `CACHE_EXPIRE_TIME` may parse to a negative number. Negative numbers are truthy, so the value is kept, and every saved marker then lies in the past.

## Model

| member | source | states |
|---|---|---|
| `NameList.GetNameList` | app/sheets.js:163-203 | reads the marker first; refreshes exactly when the marker is absent or `now >= expiry`; a strictly earlier call returns the stored roster (or `[]`) with `cached = true`, changes nothing and neither authorizes, fetches nor writes; the files change only when fetched rows are written; `cached` is false exactly when a fetch happened |
| `NameList.Refresh` | app/sheets.js:182-200 | expired path: exactly one authorization and at most one fetch, which happens only if authorization succeeds; a failed authorization serves the stored roster however stale (or `[]`) with `cached = true`, files untouched and nothing written; an authorized call returns the fetched list with `cached = false`; an empty fetch writes nothing; fetched rows leave the files exactly as `saveCache` of those rows at `now` leaves them, and the only actions after the fetch are that call's writes |
| `NameList.RefreshStoresRosterAndExpiry` | app/sheets.js:121-131 | after a refresh whose two writes succeed, the files hold exactly the fetched roster and the marker `now + TTL hours`; a call at or after that marker takes the refresh path again and authorizes |
| `NameList.FetchAndSave` | app/sheets.js:185-196 | after a successful authorization: one fetch; a transport error adds no further action and leaves the files as they were; for fetched rows the actions after the fetch are exactly `saveCache`'s write attempts and the files end as `saveCache` leaves them |
| `NameList.RefreshThenServedFromCache` | app/sheets.js:164-196 | after a complete refresh, every later call strictly before `now + TTL hours` returns exactly the fetched list with `cached = true`, without fetching and without changing the files |
| `NameList.LostMarkerStaysExpired` | app/sheets.js:129-135 | a refresh whose marker write fails leaves the new payload beside the old (absent or past) marker, so every call from then on refreshes again |
| `NameList.EmptyFetchKeepsCache` | app/sheets.js:191-196 | an empty fetch (transport error) leaves the stored payload and marker exactly as before; when authorized and expired the response is `[]` with `cached = false` |
| `NameList.AuthFailureServesStoredRoster` | app/sheets.js:197-200 | fail-open: when authorization fails and a payload exists, that payload is served with `cached = true`, at any time, with no change to the files |
| `NameList.ClearThenUnreachable` | app/sheets.js:141-144 | after the program's `clearCache`, thrown or not, a call that cannot authorize or whose read fails returns `[]`; when the clear did not throw, that call is cached exactly when authorization failed and the cache stays empty |
| `NameList.TolerantClearThenUnreachable` | app/sheets.js:174-200 | after the corrected clear, from any starting files, a call that cannot authorize returns `[]` with `cached = true`, a call whose read fails returns `[]` with `cached = false`, and the cache stays empty |
| `NameList.GetNameListKeepsTolerated` | app/sheets.js:191-196 | calls preserve the state a refresh maintains: a marker comes with a payload, and a payload written by a call is never an empty list |
| `NameList.OneHourTimeline` | app/sheets.js:164-196 | with a one-hour TTL and a cache due at `t0 + 60 min`: a call at `t0 + 30 min` is served `["Alice","Bob"]` from the cache; a call at `t0 + 90 min` returns the fetched three names uncached and sets the marker to `t0 + 150 min` |
| `CacheStore.SaveCache` | app/sheets.js:117-139 | the actions are exactly the payload write, followed by the marker write if and only if the payload write succeeded; the payload reads back as the saved data exactly when its write succeeded; the marker becomes `now + TTL hours` only when both writes succeed and otherwise keeps its old value |
| `CacheStore.LoadCacheExpiryAfterWrites` | app/sheets.js:104-114 | the marker reads back (a missing file as `None`, the `null` the promise resolves with) as `now + TTL hours` exactly when both of `saveCache`'s writes succeeded and as the previous marker otherwise; it reads as `None` after a clear that completed and after the corrected clear |
| `CacheStore.LoadCacheAfterWrites` | app/sheets.js:147-160 | the payload reads back as the saved roster exactly when `saveCache`'s payload write succeeded and as the previous one otherwise; after any clear, thrown or not, and after the corrected clear, loading rejects (`None`) |
| `CacheStore.SaveCacheKeepsMarkerWithPayload` | app/sheets.js:121-137 | saving never produces a marker without a payload |
| `CacheStore.ClearCache` | app/sheets.js:141-144 | as written: the call completes without throwing exactly when both files exist; with a payload present both files are gone afterwards; with no payload it throws before touching anything, so a lone marker survives; the actions are exactly the payload removal, followed by the marker removal only when the payload removal succeeded |
| `CacheStore.ClearCacheKeepsMarkerWithPayload` | app/sheets.js:141-144 | clearing, as written or as corrected, never produces a marker without a payload |
| `CacheStore.SecondClearThrows` | app/sheets.js:141-144 | as written, the second of two successive clears always throws |
| `CacheStore.ClearKeepsOrphanMarker` | app/sheets.js:141-144 | as written, a marker without a payload survives a clear, and the call throws |
| `CacheStore.ClearCacheTolerant` | app/sheets.js:141-144 | corrected clear: never throws, always leaves both files absent, attempts both removals, and agrees with the code when both files exist |
| `Sheet.ProjectRows` | app/sheets.js:93-95 | one entry per row, in row order, each the row's first cell (`None` for an empty row) |
| `Sheet.FetchGoogleSheet` | app/sheets.js:79-101 | a transport error yields `[]`; rows yield one entry per row, present exactly when the row has a cell and then equal to its first cell; the result is empty exactly on a transport error |
| `Config.CacheExpireHours` | app/sheets.js:28 | the TTL is never zero; it is 1 exactly when `parseInt` gives `NaN`, 0 or 1; any other value is the parsed integer |
| `Config.CacheExpireHoursDefaults` | app/sheets.js:28 | an unset variable, an empty or non-numeric value and `"0"` all give one hour |
| `Config.CacheExpireHoursOfNumeral` | app/sheets.js:28 | a non-zero numeral, negative ones included, is taken as the TTL, even when followed by a unit or fraction |
| `ParseInt.ParseShow` | app/sheets.js:28 | `parseInt` reads back every integer's decimal numeral, and it stops at the first character that cannot continue the numeral |
| `ParseInt.ParseSkipsWhiteSpace` | app/sheets.js:28 | leading white space never changes what `parseInt` reads |
| `ParseInt.ParsePlusDecimal` | app/sheets.js:28 | a leading `+` is dropped: `"+"` followed by a numeral reads as that (non-negative) number |
| `ParseInt.ParseHex` | app/sheets.js:28 | a `0x` or `0X` prefix switches to radix 16: the hexadecimal digits after it are read up to the first character that is not one |
| `ParseInt.ParseHexWithoutDigits` | app/sheets.js:28 | a `0x` or `0X` prefix with no hexadecimal digit after it is `NaN`, not 0 |
| `ParseInt.ParseNonNumeric` | app/sheets.js:28 | a string starting with neither white space, a sign nor a digit is `NaN` |

## Left out

- `authorize` (app/sheets.js:35-76): the JWT client, the token file and its directory are not modelled. Only the outcome is, as `Oracle.authorized`. A corrupt token file makes `JSON.parse` throw inside the callback, and that crash is out of scope.
- A sheet reply with zero rows or with no `values` field: `fetchGoogleSheet` then never settles, or it throws on `rows.length`. `Sheet.Settles` excludes these replies, and `getNameList` requires it only of calls that are expired and authorized, the only calls that fetch.
- A corrupt `cache.json`: `JSON.parse` throws inside the callback instead of rejecting. Not modelled.
- JSON serialisation of the payload: the stored value is modelled as the list itself. `undefined` entries come back as `null`, and both are `None` here.
- Unreadable but present files: `None` stands for a missing file only. A payload that exists but cannot be read behaves as missing for `loadCache`, yet `clearCache` would remove it without throwing. The model has no such state.
- Date handling with moment: the marker is an integer millisecond instant rather than ISO-8601 text. An unparsable marker is not represented. `getNameList` treats it like an absent marker, but `clearCache` would remove it.
- Clock readings: one `now` serves the whole call. `saveCache` reads the clock again after the fetch, and that later reading is identified with `now`.
- Asynchrony and concurrency: each call is one atomic step. `getNameList` resolves before `saveCache`'s writes finish, and interleaved refreshes are not modelled.
- `CacheStore.SaveCache`: a failed write is modelled as one that fails before its file is opened, leaving that file as it was. `fs.writeFile` truncates on open, so a write that fails later (a full disk, an I/O error) leaves an empty or partial file; that outcome is not modelled. A truncated `cache.json` would make the next `loadCache` throw in `JSON.parse`, and a truncated marker would read as an invalid date.
- `CacheStore.LoadCacheExpiry` and `CacheStore.LoadCache`: a marker that is present but not a valid date, and a payload that is present but not valid JSON, are not represented (see the lines on moment and on a corrupt `cache.json`).
- `mkdirSync` in `saveCache` (app/sheets.js:118-120): directory creation, and its possible failure, are not modelled.
- `requireEnv`, `process.exit`, reading of environment variables, and the spreadsheet id and range (app/sheets.js:6-33, 186-190): these are configuration, not logic.
- Logging with `console.*` is not modelled.
- `ParseInt.Parse`: works on unbounded integers. The source yields a double, so numerals beyond 2^53 lose precision, and huge values produce invalid dates. Those cases are not modelled.
- The HTTP routes in `app/router.js`: request mapping and database calls. This includes how `/clear-cache` reports a thrown `clearCache`.

## Findings

| source | as written | input that shows it | evidently intended | confidence | as-written member | corrected member |
|---|---|---|---|---|---|---|
| app/sheets.js:141-144 | `clearCache` calls `rmSync` on `cache.json` and then on `cache.json.expiry`, with no `force` option. A missing file throws and stops the call. | Two successive `/clear-cache` requests: the second throws because `cache.json` is already gone. Also, a marker with no payload: the call throws and the marker is kept. | Clearing is idempotent and leaves both files absent. The `/clear-cache` route is commented "Send a success response no matter what" (app/router.js:116-117), which a throwing `clearCache` prevents. | medium, not executed | `CacheStore.SecondClearThrows` | `CacheStore.ClearCacheTolerant` |

=== FILE: cache_store.dfy ===
/** The two cache files: the roster payload (`cache.json`) and its expiry
    marker (`cache.json.expiry`), written and removed independently. */
module CacheStore {
  import opened Wrappers
  import opened Sheet
  import opened Effects
  import opened Config

  /** What is on disk. `None` is a missing file; the marker
      holds the expiry instant in milliseconds. */
  datatype CacheState = CacheState(payload: Option<seq<Cell>>, expiry: Option<int>)

  const Empty := CacheState(None, None)

  /** Whether each of `saveCache`'s two file writes succeeds. */
  datatype WriteOutcomes = WriteOutcomes(payloadWritten: bool, expiryWritten: bool)

  /** The files after an operation, and the file actions it attempted. */
  datatype Transition = Transition(state: CacheState, effects: seq<Effect>)

  /** `clearCache`: whether it threw, the files after it, the removals
      attempted. */
  datatype Clearing = Clearing(threw: bool, state: CacheState, effects: seq<Effect>)

  /** `loadCacheExpiry`: the marker's instant, or `None` (the `null` it
      resolves with) when the marker file is missing. */
  function LoadCacheExpiry(s: CacheState): (r: Option<int>)
    ensures r.None? <==> s.expiry.None?
    ensures s.expiry.Some? ==> r == Some(s.expiry.value)
  {
    s.expiry
  }

  /** `loadCache`: the stored roster, or `None` (the rejection) when the
      payload file is missing. */
  function LoadCache(s: CacheState): (r: Option<seq<Cell>>)
    ensures r.None? <==> s.payload.None?
    ensures s.payload.Some? ==> r == Some(s.payload.value)
  {
    s.payload
  }

  /** The marker `saveCache` writes at `now`: `hours` hours later. */
  function ExpiryAfter(now: int, hours: int): (t: int)
    ensures hours > 0 ==> t > now
  {
    now + hours * HourMillis
  }

  /** `saveCache(data)` at `now`. The payload is written first; the marker is
      attempted only once that write has succeeded. A failed write is one
      that fails before its file is opened: a failed payload write leaves
      both files as they were; a failed marker write leaves the new payload
      beside the previous marker. */
  function SaveCache(s: CacheState, data: seq<Cell>, now: int, hours: int, w: WriteOutcomes)
    : (r: Transition)
    ensures |r.effects| > 0 && r.effects[0] == WritePayload
    ensures WriteExpiry in r.effects <==> w.payloadWritten
    ensures forall e :: e in r.effects ==> e == WritePayload || e == WriteExpiry
    // Exactly the two `writeFile` calls, the marker only after the payload.
    ensures r.effects == (if w.payloadWritten then [WritePayload, WriteExpiry] else [WritePayload])
    ensures LoadCache(r.state) == (if w.payloadWritten then Some(data) else LoadCache(s))
    ensures LoadCacheExpiry(r.state) ==
      (if w.payloadWritten && w.expiryWritten then Some(ExpiryAfter(now, hours))
       else LoadCacheExpiry(s))
  {
    if !w.payloadWritten then Transition(s, [WritePayload])
    else if !w.expiryWritten then Transition(s.(payload := Some(data)), [WritePayload, WriteExpiry])
    else Transition(CacheState(Some(data), Some(ExpiryAfter(now, hours))), [WritePayload, WriteExpiry])
  }

  /** `clearCache`: remove the payload, then the marker. Removing a missing
      file throws, which ends the operation: with no payload nothing is
      removed (the marker survives); with a payload but no marker the
      payload is gone and the call still throws. */
  function ClearCache(s: CacheState): (r: Clearing)
    ensures !r.threw <==> s.payload.Some? && s.expiry.Some?
    ensures s.payload.Some? ==> r.state == Empty
    ensures s.payload.None? ==> r.state == s
    ensures |r.effects| > 0 && r.effects[0] == RemovePayload
    ensures RemoveExpiry in r.effects <==> s.payload.Some?
    // Exactly the `rmSync` calls made, the marker only after the payload.
    ensures r.effects == (if s.payload.Some? then [RemovePayload, RemoveExpiry] else [RemovePayload])
  {
    match s.payload
    case None => Clearing(true, s, [RemovePayload])
    case Some(_) => Clearing(s.expiry.None?, Empty, [RemovePayload, RemoveExpiry])
  }

  /** As written, clearing twice in a row always throws the second time:
      the first clear leaves no payload, and removing the missing payload
      throws. */
  lemma SecondClearThrows(s: CacheState)
    ensures ClearCache(ClearCache(s).state).threw
  {
  }

  /** As written, a marker without a payload survives a clear, so a clear
      does not always make the cache empty. */
  lemma ClearKeepsOrphanMarker(t: int)
    ensures var r := ClearCache(CacheState(None, Some(t)));
      r.threw && r.state.expiry == Some(t) && r.state != Empty
  {
  }

  /** `clearCache` as evidently intended: remove each file that exists and
      tolerate either being absent (`rmSync` with `force`). It never throws
      and always leaves the cache empty, so it is idempotent. */
  function ClearCacheTolerant(s: CacheState): (r: Clearing)
    ensures !r.threw && r.state == Empty
    ensures r.effects == [RemovePayload, RemoveExpiry]
    ensures s.payload.Some? && s.expiry.Some? ==> r == ClearCache(s)
  {
    Clearing(false, Empty, [RemovePayload, RemoveExpiry])
  }

  /** `loadCache` reads back what the writers left: the saved roster exactly
      when its write succeeded, the previous one otherwise, and nothing after
      any clear, whether or not it threw. */
  lemma LoadCacheAfterWrites(s: CacheState, d: seq<Cell>, now: int, hours: int, w: WriteOutcomes)
    ensures LoadCache(SaveCache(s, d, now, hours, w).state) ==
      (if w.payloadWritten then Some(d) else LoadCache(s))
    ensures LoadCache(ClearCache(s).state).None?
    ensures LoadCache(ClearCacheTolerant(s).state).None?
  {
  }

  /** `loadCacheExpiry` reads back `now + hours` exactly when both of
      `saveCache`'s writes succeeded and the previous marker otherwise; it
      reads nothing after a clear that completed or a corrected clear. */
  lemma LoadCacheExpiryAfterWrites(s: CacheState, d: seq<Cell>, now: int, hours: int, w: WriteOutcomes)
    ensures LoadCacheExpiry(SaveCache(s, d, now, hours, w).state) ==
      (if w.payloadWritten && w.expiryWritten then Some(ExpiryAfter(now, hours))
       else LoadCacheExpiry(s))
    ensures !ClearCache(s).threw ==> LoadCacheExpiry(ClearCache(s).state).None?
    ensures LoadCacheExpiry(ClearCacheTolerant(s).state).None?
  {
  }

  /** The tolerated shape of the two files: a marker comes with a payload. */
  predicate MarkerHasPayload(s: CacheState) {
    s.expiry.Some? ==> s.payload.Some?
  }

  lemma SaveCacheKeepsMarkerWithPayload(s: CacheState, data: seq<Cell>, now: int, hours: int, w: WriteOutcomes)
    requires MarkerHasPayload(s)
    ensures MarkerHasPayload(SaveCache(s, data, now, hours, w).state)
  {
  }

  lemma ClearCacheKeepsMarkerWithPayload(s: CacheState)
    requires MarkerHasPayload(s)
    ensures MarkerHasPayload(ClearCache(s).state)
    ensures MarkerHasPayload(ClearCacheTolerant(s).state)
  {
  }
}

=== FILE: config.dfy ===
/** The cache time-to-live read from the environment at start-up. */
module Config {
  import opened Wrappers
  import opened ParseInt

  /** One hour on the model's clock, which counts milliseconds (the
      resolution of the ISO-8601 expiry marker). */
  const HourMillis: int := 3_600_000

  /** `parseInt(process.env.CACHE_EXPIRE_TIME) || 1`: `NaN` and zero are
      falsy and give the one-hour default; any other integer, a negative one
      included, is kept. */
  function CacheExpireHours(env: Option<string>): (hours: int)
    ensures hours != 0
    ensures hours == 1 <==> ParseEnv(env) in {None, Some(0), Some(1)}
    ensures hours != 1 ==> ParseEnv(env) == Some(hours)
  {
    match ParseEnv(env)
    case None => 1
    case Some(h) => if h == 0 then 1 else h
  }

  /** A missing variable, an empty or non-numeric value and "0" all fall
      back to one hour. */
  lemma CacheExpireHoursDefaults(text: string)
    requires |text| == 0 || !(IsDigitOf(text[0], 10) || IsWhiteSpace(text[0]) || text[0] == '+' || text[0] == '-')
    ensures CacheExpireHours(None) == 1
    ensures CacheExpireHours(Some(text)) == 1
    ensures CacheExpireHours(Some("0")) == 1
  {
    ParseNonNumeric(text);
    ParseNonNumeric("undefined");
    ParseShow(0, "");
    assert Show(0) + "" == "0";
  }

  /** A non-zero numeral, possibly followed by a unit or a fraction that
      `parseInt` ignores, is taken as the number of hours. */
  lemma CacheExpireHoursOfNumeral(n: int, rest: string)
    requires n != 0
    requires |rest| == 0 || !(IsDigitOf(rest[0], 10) || rest[0] == 'x' || rest[0] == 'X')
    ensures CacheExpireHours(Some(Show(n) + rest)) == n
  {
    ParseShow(n, rest);
  }
}

=== FILE: effects.dfy ===
/** The external actions one operation performs, in the order it starts
    them. A write or removal is listed when it is attempted, whether or not
    it succeeds. */
module Effects {

  datatype Effect =
    | ReadExpiry     // read `cache.json.expiry`
    | ReadPayload    // read `cache.json`
    | WritePayload   // write `cache.json`
    | WriteExpiry    // write `cache.json.expiry`
    | RemovePayload  // remove `cache.json`
    | RemoveExpiry   // remove `cache.json.expiry`
    | Authorize      // obtain a JWT client
    | FetchSheet     // ranged read of the spreadsheet

  predicate Writes(e: Effect) {
    e.WritePayload? || e.WriteExpiry? || e.RemovePayload? || e.RemoveExpiry?
  }

  /** How many times `e` occurs in `es`. */
  function Count(e: Effect, es: seq<Effect>): (n: nat) {
    if |es| == 0 then 0 else (if es[0] == e then 1 else 0) + Count(e, es[1..])
  }

  /** Counting distributes over concatenation. */
  lemma {:induction false} CountAppend(e: Effect, a: seq<Effect>, b: seq<Effect>)
    ensures Count(e, a + b) == Count(e, a) + Count(e, b)
  {
    if |a| > 0 {
      assert (a + b)[1..] == a[1..] + b;
      CountAppend(e, a[1..], b);
    } else {
      assert a + b == b;
    }
  }

  /** An action occurs in a trace exactly when it is counted there. */
  lemma {:induction false} CountPositive(e: Effect, es: seq<Effect>)
    ensures Count(e, es) > 0 <==> e in es
  {
    if |es| > 0 {
      CountPositive(e, es[1..]);
      assert es == [es[0]] + es[1..];
    }
  }
}

=== FILE: name_list.dfy ===
/** `getNameList`: serve the cached roster while it is fresh, otherwise
    authorise, fetch and save, falling back to the cached roster when
    authorisation fails. Each call is one atomic step from the files before
    it to the files after it; the outcomes of the external calls are given as
    an oracle. */
module NameList {
  import opened Wrappers
  import opened Sheet
  import opened Effects
  import opened Config
  import opened CacheStore

  /** The resolved value `{data, cached}`. */
  datatype Response = Response(data: seq<Cell>, cached: bool)

  /** How the outside world answers during one call: whether `authorize`
      resolves, what the ranged read returns, and how the cache writes fare. */
  datatype Oracle = Oracle(authorized: bool, reply: SheetReply, writes: WriteOutcomes)

  /** One call: its response, the files after it, the actions it started. */
  datatype Call = Call(response: Response, state: CacheState, effects: seq<Effect>)

  /** The cache is expired unless a marker exists and `now` is strictly
      before it. */
  predicate IsExpired(expiry: Option<int>, now: int) {
    match expiry
    case None => true
    case Some(t) => !(now < t)
  }

  /** `fromCache`: the stored roster, or the empty list when it cannot be
      loaded; marked as cached either way. */
  function FromCache(s: CacheState): (r: Response) {
    Response(LoadCache(s).GetOr([]), true)
  }

  /** A fetch that failed: the empty list, uncached, and no write. */
  function FetchFailed(s: CacheState): (c: Call)
    ensures c.effects == [ReadExpiry, Authorize, FetchSheet]
    ensures Count(Authorize, c.effects) == 1 && Count(FetchSheet, c.effects) == 1
    ensures forall e :: e in c.effects ==> !Writes(e)
    ensures c.response == Response([], false) && c.state == s
  {
    Call(Response([], false), s, [ReadExpiry, Authorize, FetchSheet])
  }

  /** A fetch that returned `names`: saved, then returned uncached. The
      actions after the fetch are exactly `saveCache`'s write attempts. */
  function FetchedAndSaved(s: CacheState, names: seq<Cell>, now: int, hours: int, w: WriteOutcomes)
    : (c: Call)
    ensures |c.effects| >= 3 && c.effects[..3] == [ReadExpiry, Authorize, FetchSheet]
    ensures c.effects[3..] == SaveCache(s, names, now, hours, w).effects
    ensures Count(Authorize, c.effects) == 1 && Count(FetchSheet, c.effects) == 1
    ensures c.response == Response(names, false)
    ensures c.state == SaveCache(s, names, now, hours, w).state
  {
    var saved := SaveCache(s, names, now, hours, w);
    var effects := [ReadExpiry, Authorize, FetchSheet] + saved.effects;
    assert effects[..3] == [ReadExpiry, Authorize, FetchSheet];
    assert effects[3..] == saved.effects;
    CountAppend(Authorize, [ReadExpiry, Authorize, FetchSheet], saved.effects);
    CountAppend(FetchSheet, [ReadExpiry, Authorize, FetchSheet], saved.effects);
    CountPositive(Authorize, saved.effects);
    CountPositive(FetchSheet, saved.effects);
    Call(Response(names, false), saved.state, effects)
  }

  /** The authorised part of the refresh path: fetch, then save a non-empty
      result. */
  function FetchAndSave(s: CacheState, now: int, hours: int, o: Oracle): (c: Call)
    requires o.authorized && Settles(o.reply)
    ensures |c.effects| >= 3 && c.effects[..3] == [ReadExpiry, Authorize, FetchSheet]
    // One authorisation and one fetch.
    ensures Count(Authorize, c.effects) == 1 && Count(FetchSheet, c.effects) == 1
    // The fetched list is returned uncached.
    ensures c.response == Response(FetchGoogleSheet(o.reply), false)
    // A transport error writes nothing.
    ensures o.reply.TransportError? ==>
      c.state == s && forall e :: e in c.effects ==> !Writes(e)
    ensures o.reply.TransportError? ==> c.effects == [ReadExpiry, Authorize, FetchSheet]
    // Fetched rows are saved with the payload-then-marker ordering, and the
    // only actions after the fetch are `saveCache`'s writes.
    ensures o.reply.Values? ==>
      c.state == SaveCache(s, ProjectRows(o.reply.rows), now, hours, o.writes).state
    ensures o.reply.Values? ==>
      c.effects[3..] == SaveCache(s, ProjectRows(o.reply.rows), now, hours, o.writes).effects
  {
    match o.reply
    case TransportError => FetchFailed(s)
    case Values(rows) => FetchedAndSaved(s, ProjectRows(rows), now, hours, o.writes)
  }

  /** The `catch` of the refresh path: authorisation failed, so serve the
      stored roster however old, without fetching or writing. */
  function AuthFailed(s: CacheState): (c: Call)
    ensures c.effects == [ReadExpiry, Authorize, ReadPayload]
    ensures Count(Authorize, c.effects) == 1 && Count(FetchSheet, c.effects) == 0
    ensures forall e :: e in c.effects ==> !Writes(e)
    ensures c.response == Response(s.payload.GetOr([]), true) && c.state == s
  {
    Call(FromCache(s), s, [ReadExpiry, Authorize, ReadPayload])
  }

  /** The refresh path of `getNameList`, taken once the cache is expired:
      authorise, then fetch and save; when authorisation fails, fall back to
      the stored roster. */
  function Refresh(s: CacheState, now: int, hours: int, o: Oracle): (c: Call)
    requires o.authorized ==> Settles(o.reply)
    ensures |c.effects| >= 3 && c.effects[..2] == [ReadExpiry, Authorize]
    // Exactly one authorisation, and one fetch if it succeeds.
    ensures Count(Authorize, c.effects) == 1
    ensures Count(FetchSheet, c.effects) == (if o.authorized then 1 else 0)
    // Authorisation failed: the stored roster however old, files untouched.
    ensures !o.authorized ==>
      c.response == Response(s.payload.GetOr([]), true) && c.state == s
      && forall e :: e in c.effects ==> !Writes(e)
    ensures !o.authorized ==> c.effects == [ReadExpiry, Authorize, ReadPayload]
    // Authorised: the fetched list is returned uncached.
    ensures o.authorized ==> c.response == Response(FetchGoogleSheet(o.reply), false)
    // An empty fetch writes nothing.
    ensures o.authorized && o.reply.TransportError? ==>
      c.state == s && forall e :: e in c.effects ==> !Writes(e)
    ensures o.authorized && o.reply.TransportError? ==>
      c.effects == [ReadExpiry, Authorize, FetchSheet]
    // Fetched rows are saved with the payload-then-marker ordering, and the
    // only actions after the fetch are `saveCache`'s writes.
    ensures o.authorized && o.reply.Values? ==>
      c.state == SaveCache(s, ProjectRows(o.reply.rows), now, hours, o.writes).state
    ensures o.authorized && o.reply.Values? ==>
      c.effects[3..] == SaveCache(s, ProjectRows(o.reply.rows), now, hours, o.writes).effects
  {
    if !o.authorized then AuthFailed(s) else FetchAndSave(s, now, hours, o)
  }

  /** `getNameList` at time `now`, with a time-to-live of `hours`. */
  function GetNameList(s: CacheState, now: int, hours: int, o: Oracle): (c: Call)
    // Only a call that fetches needs a reply after which the read settles.
    requires IsExpired(s.expiry, now) && o.authorized ==> Settles(o.reply)
    // The marker is read first; the refresh path is taken exactly when the
    // marker is missing or `now` has reached it.
    ensures |c.effects| >= 2 && c.effects[0] == ReadExpiry
    ensures c.effects[1] == Authorize <==> s.expiry.None? || now >= s.expiry.value
    // Fresh: the stored roster (or `[]`), cached, files untouched, nothing
    // authorised, fetched or written.
    ensures s.expiry.Some? && now < s.expiry.value ==>
      && c.response == Response(s.payload.GetOr([]), true)
      && c.state == s
      && c.effects == [ReadExpiry, ReadPayload]
    // Otherwise the refresh path decides.
    ensures IsExpired(s.expiry, now) ==> c == Refresh(s, now, hours, o)
    // The files change only on a refresh that fetched rows and wrote them.
    ensures c.state != s ==>
      && IsExpired(s.expiry, now) && o.authorized && o.reply.Values?
      && o.writes.payloadWritten
      && c.state.payload == Some(ProjectRows(o.reply.rows))
    // The response is uncached exactly when a fetch was made.
    ensures !c.response.cached <==> FetchSheet in c.effects
  {
    if !IsExpired(LoadCacheExpiry(s), now) then
      Call(FromCache(s), s, [ReadExpiry, ReadPayload])
    else
      Refresh(s, now, hours, o)
  }

  /** After a complete refresh, every call strictly before the new marker is
      served that same roster from the cache, whatever the outside world
      does. */
  lemma RefreshThenServedFromCache(s: CacheState, now: int, hours: int, o: Oracle,
                                   later: int, o2: Oracle)
    requires IsExpired(s.expiry, now) && o.authorized && o.reply.Values? && Settles(o.reply)
    requires o.writes == WriteOutcomes(true, true)
    requires later < now + hours * HourMillis
    ensures var c := GetNameList(s, now, hours, o);
      var c2 := GetNameList(c.state, later, hours, o2);
      && c2.response == Response(ProjectRows(o.reply.rows), true)
      && c2.response.data == c.response.data
      && FetchSheet !in c2.effects
      && c2.state == c.state
  {
  }

  /** A refresh whose marker write fails leaves the cache expired for every
      call from then on, so the next call refreshes again. */
  lemma LostMarkerStaysExpired(s: CacheState, now: int, hours: int, o: Oracle, later: int)
    requires IsExpired(s.expiry, now) && o.authorized && o.reply.Values? && Settles(o.reply)
    requires o.writes == WriteOutcomes(true, false)
    requires later >= now
    ensures var c := GetNameList(s, now, hours, o);
      c.state.payload == Some(ProjectRows(o.reply.rows)) && c.state.expiry == s.expiry
      && IsExpired(c.state.expiry, later)
  {
  }

  /** A transport error never clobbers the cache: the stored roster and its
      marker read back exactly as before. */
  lemma EmptyFetchKeepsCache(s: CacheState, now: int, hours: int, o: Oracle)
    requires o.reply.TransportError?
    ensures var c := GetNameList(s, now, hours, o);
      LoadCache(c.state) == LoadCache(s) && LoadCacheExpiry(c.state) == LoadCacheExpiry(s)
      && (o.authorized && IsExpired(s.expiry, now) ==> c.response == Response([], false))
  {
  }

  /** Fail-open: when authorisation fails, any stored roster is served,
      however stale, and nothing changes. */
  lemma AuthFailureServesStoredRoster(s: CacheState, now: int, hours: int, o: Oracle)
    requires !o.authorized
    requires s.payload.Some?
    ensures var c := GetNameList(s, now, hours, o);
      c.response == Response(s.payload.value, true) && c.state == s
  {
  }

  /** After the program's `clearCache`, whether or not it threw, no roster
      is left to serve: a call that cannot reach the service yields `[]`.
      When the clear completed, such a call is cached exactly when
      authorisation failed, and the cache stays empty. */
  lemma ClearThenUnreachable(s: CacheState, now: int, hours: int, o: Oracle)
    requires !o.authorized || o.reply.TransportError?
    ensures var c := GetNameList(ClearCache(s).state, now, hours, o);
      && c.response.data == []
      && (!ClearCache(s).threw ==>
            c.response.cached == !o.authorized && c.state == Empty)
  {
  }

  /** With the corrected clear the same holds from any starting files: the
      call never takes the fresh path, is cached exactly when authorisation
      failed, and leaves the cache empty. */
  lemma TolerantClearThenUnreachable(s: CacheState, now: int, hours: int, o: Oracle)
    requires !o.authorized || o.reply.TransportError?
    ensures var c := GetNameList(ClearCacheTolerant(s).state, now, hours, o);
      c.response.data == [] && c.response.cached == !o.authorized && c.state == Empty
  {
  }

  /** After a refresh whose writes both succeed, the files hold exactly the
      fetched roster and a marker `hours` after `now`; a call at or after
      that marker takes the refresh path again. */
  lemma RefreshStoresRosterAndExpiry(s: CacheState, now: int, hours: int, o: Oracle,
                                     later: int, o2: Oracle)
    requires IsExpired(s.expiry, now) && o.authorized && o.reply.Values? && Settles(o.reply)
    requires o.writes == WriteOutcomes(true, true)
    requires later >= ExpiryAfter(now, hours)
    requires o2.authorized ==> Settles(o2.reply)
    ensures var c := GetNameList(s, now, hours, o);
      && c.state == CacheState(Some(ProjectRows(o.reply.rows)), Some(ExpiryAfter(now, hours)))
      && GetNameList(c.state, later, hours, o2) == Refresh(c.state, later, hours, o2)
      && Authorize in GetNameList(c.state, later, hours, o2).effects
  {
  }

  /** The state the refresh path maintains: a marker comes with a payload,
      and a payload saved by a call is never an empty list. */
  predicate Tolerated(s: CacheState) {
    MarkerHasPayload(s) && (s.payload.Some? ==> |s.payload.value| > 0)
  }

  lemma GetNameListKeepsTolerated(s: CacheState, now: int, hours: int, o: Oracle)
    requires Tolerated(s)
    requires IsExpired(s.expiry, now) && o.authorized ==> Settles(o.reply)
    ensures Tolerated(GetNameList(s, now, hours, o).state)
  {
  }

  /** Worked timeline with a one-hour time-to-live: written at `t0`, served
      from cache half an hour later, refreshed with a third name ninety
      minutes later, and then due at `t0` plus 150 minutes. */
  lemma OneHourTimeline(t0: int, o: Oracle)
    requires o == Oracle(true, Values([["Alice"], ["Bob"], ["Carol"]]), WriteOutcomes(true, true))
    ensures var s := CacheState(Some([Some("Alice"), Some("Bob")]), Some(t0 + 60 * 60_000));
      && GetNameList(s, t0 + 30 * 60_000, 1, o).response == Response([Some("Alice"), Some("Bob")], true)
      && GetNameList(s, t0 + 90 * 60_000, 1, o).response ==
           Response([Some("Alice"), Some("Bob"), Some("Carol")], false)
      && GetNameList(s, t0 + 90 * 60_000, 1, o).state.expiry == Some(t0 + 150 * 60_000)
  {
    var s := CacheState(Some([Some("Alice"), Some("Bob")]), Some(t0 + 60 * 60_000));
    assert GetNameList(s, t0 + 30 * 60_000, 1, o).response == FromCache(s);
    var rows := [["Alice"], ["Bob"], ["Carol"]];
    var names := [Some("Alice"), Some("Bob"), Some("Carol")];
    assert forall i :: 0 <= i < 3 ==> ProjectRows(rows)[i] == names[i];
    assert ProjectRows(rows) == names;
    var t90 := t0 + 90 * 60_000;
    assert GetNameList(s, t90, 1, o) == FetchedAndSaved(s, names, t90, 1, o.writes);
    assert SaveCache(s, names, t90, 1, o.writes).state.expiry == Some(t90 + HourMillis);
  }
}

=== FILE: parse_int.dfy ===
/** JavaScript's global `parseInt(string)` called without a radix, on integers
    rather than IEEE doubles. `None` stands for `NaN`. */
module ParseInt {
  import opened Wrappers

  /** The characters `parseInt` strips from the front of its argument:
      WhiteSpace and LineTerminator of ECMAScript (tab, vertical tab, form
      feed, space, no-break space, byte order mark, the Zs category, line
      feed, carriage return, line and paragraph separator). */
  predicate IsWhiteSpace(c: char) {
    || '\t' <= c <= '\r'   // tab, line feed, vertical tab, form feed, carriage return
    || c == ' ' || c == '\U{00A0}' || c == '\U{1680}'
    || '\U{2000}' <= c <= '\U{200A}'
    || c == '\U{2028}' || c == '\U{2029}' || c == '\U{202F}' || c == '\U{205F}'
    || c == '\U{3000}' || c == '\U{FEFF}'
  }

  /** The value of `c` as a digit in any radix up to 36, or -1. */
  function DigitValue(c: char): (v: int)
    ensures -1 <= v < 36
    ensures '0' <= c <= '9' ==> v == c as int - '0' as int
    ensures v < 0 <==> !('0' <= c <= '9' || 'a' <= c <= 'z' || 'A' <= c <= 'Z')
  {
    if '0' <= c <= '9' then c as int - '0' as int
    else if 'a' <= c <= 'z' then c as int - 'a' as int + 10
    else if 'A' <= c <= 'Z' then c as int - 'A' as int + 10
    else -1
  }

  predicate IsDigitOf(c: char, radix: nat) {
    0 <= DigitValue(c) < radix
  }

  predicate AllDigits(s: string, radix: nat) {
    forall i :: 0 <= i < |s| ==> IsDigitOf(s[i], radix)
  }

  /** `s` without its leading white space. */
  function TrimStart(s: string): (t: string)
    ensures |t| <= |s| && t == s[|s| - |t|..]
    ensures forall i :: 0 <= i < |s| - |t| ==> IsWhiteSpace(s[i])
    ensures |t| > 0 ==> !IsWhiteSpace(t[0])
  {
    if |s| > 0 && IsWhiteSpace(s[0]) then TrimStart(s[1..]) else s
  }

  /** Length of the longest prefix of `s` made of radix-`radix` digits. */
  function DigitRun(s: string, radix: nat): (k: nat)
    ensures k <= |s|
    ensures AllDigits(s[..k], radix)
    ensures k < |s| ==> !IsDigitOf(s[k], radix)
  {
    if |s| == 0 || !IsDigitOf(s[0], radix) then 0
    else
      var k := 1 + DigitRun(s[1..], radix);
      assert s[..k] == [s[0]] + s[1..][..k - 1];
      k
  }

  /** The number a string of digits denotes, most significant digit first. */
  function ValueOf(ds: string, radix: nat): (v: nat)
    requires AllDigits(ds, radix)
  {
    if |ds| == 0 then 0
    else ValueOf(ds[..|ds| - 1], radix) * radix + DigitValue(ds[|ds| - 1])
  }

  /** `parseInt(s)`: skip white space, take one optional sign, take a `0x` or
      `0X` prefix as radix 16 (radix 10 otherwise), then read the longest run
      of digits; no digit at all is `NaN`. A negative zero is 0 here. */
  function Parse(s: string): (r: Option<int>) {
    ParseTrimmed(TrimStart(s))
  }

  function ParseTrimmed(t: string): (r: Option<int>) {
    match Magnitude(SignStripped(t))
    case None => None
    case Some(m) => Some(if |t| > 0 && t[0] == '-' then -(m as int) else m)
  }

  /** The unsigned part: an optional hexadecimal prefix, then digits. */
  function Magnitude(u: string): (r: Option<nat>)
    ensures r.None? <==> DigitRun(PrefixStripped(u), RadixOf(u)) == 0
  {
    var body := PrefixStripped(u);
    var k := DigitRun(body, RadixOf(u));
    if k == 0 then None else Some(ValueOf(body[..k], RadixOf(u)))
  }

  function SignStripped(t: string): (u: string) {
    if |t| > 0 && (t[0] == '-' || t[0] == '+') then t[1..] else t
  }

  predicate HasHexPrefix(u: string) {
    |u| >= 2 && u[0] == '0' && (u[1] == 'x' || u[1] == 'X')
  }

  function RadixOf(u: string): (radix: nat) {
    if HasHexPrefix(u) then 16 else 10
  }

  function PrefixStripped(u: string): (body: string) {
    if HasHexPrefix(u) then u[2..] else u
  }

  /** `parseInt` applied to an environment variable that may be unset: an
      unset variable is converted to the string "undefined" first. */
  function ParseEnv(v: Option<string>): (r: Option<int>) {
    Parse(v.GetOr("undefined"))
  }

  /** The decimal digit for `d`. */
  function DecimalDigit(d: nat): (c: char)
    requires d < 10
    ensures IsDigitOf(c, 10) && DigitValue(c) == d
  {
    ('0' as int + d) as char
  }

  /** The shortest decimal numeral for `n`: no leading zero except for 0. */
  function Decimal(n: nat): (s: string)
    ensures |s| > 0 && AllDigits(s, 10)
    ensures n > 0 ==> s[0] != '0'
    ensures n == 0 ==> s == "0"
  {
    if n < 10 then [DecimalDigit(n)] else Decimal(n / 10) + [DecimalDigit(n % 10)]
  }

  /** The shortest decimal numeral of the integer `n`, with a leading `-`
      when it is negative. */
  function Show(n: int): (s: string) {
    if n < 0 then "-" + Decimal(-n) else Decimal(n)
  }

  lemma {:induction false} ValueOfDecimal(n: nat)
    ensures ValueOf(Decimal(n), 10) == n
  {
    if n >= 10 {
      var s := Decimal(n);
      assert s[..|s| - 1] == Decimal(n / 10);
      ValueOfDecimal(n / 10);
    }
  }

  /** A decimal numeral without sign is read back as its number, up to the
      first character that cannot continue it. */
  lemma MagnitudeOfDecimal(n: nat, rest: string)
    requires |rest| == 0 || !(IsDigitOf(rest[0], 10) || rest[0] == 'x' || rest[0] == 'X')
    ensures Magnitude(Decimal(n) + rest) == Some(n)
  {
    var d := Decimal(n);
    var u := d + rest;
    assert u[0] == d[0];
    if n == 0 && |rest| > 0 {
      assert u[1] == rest[0];
    }
    assert !HasHexPrefix(u);
    assert PrefixStripped(u) == u && RadixOf(u) == 10;
    DigitRunOfAppend(d, rest, 10);
    assert u[..|d|] == d;
    ValueOfDecimal(n);
  }

  /** A run of digits followed by a non-digit is read in full. */
  lemma {:induction false} DigitRunOfAppend(d: string, rest: string, radix: nat)
    requires AllDigits(d, radix)
    requires |rest| == 0 || !IsDigitOf(rest[0], radix)
    ensures DigitRun(d + rest, radix) == |d|
  {
    var u := d + rest;
    if |d| == 0 {
      assert u == rest;
    } else {
      assert u[0] == d[0];
      assert u[1..] == d[1..] + rest;
      DigitRunOfAppend(d[1..], rest, radix);
    }
  }

  /** Reading back a numeral gives its number, and `parseInt` stops at the
      first character that cannot continue it (a trailing ".5", "h", " " …).
      A suffix starting with `x` or `X` is excluded: after "0" it would turn
      the numeral into a hexadecimal prefix. */
  lemma ParseShow(n: int, rest: string)
    requires |rest| == 0 || !(IsDigitOf(rest[0], 10) || rest[0] == 'x' || rest[0] == 'X')
    ensures Parse(Show(n) + rest) == Some(n)
  {
    if n < 0 {
      var m: nat := -n;
      assert Show(n) == "-" + Decimal(m);
      assert Show(n) + rest == "-" + (Decimal(m) + rest);
      ParseSignedDecimal(m, rest);
    } else {
      ParseUnsignedDecimal(n, rest);
    }
  }

  lemma ParseUnsignedDecimal(n: nat, rest: string)
    requires |rest| == 0 || !(IsDigitOf(rest[0], 10) || rest[0] == 'x' || rest[0] == 'X')
    ensures Parse(Decimal(n) + rest) == Some(n)
  {
    var s := Decimal(n) + rest;
    assert s[0] == Decimal(n)[0];
    DigitIsNotWhiteSpace(s[0]);
    assert TrimStart(s) == s;
    assert SignStripped(s) == s;
    MagnitudeOfDecimal(n, rest);
  }

  lemma ParseSignedDecimal(n: nat, rest: string)
    requires |rest| == 0 || !(IsDigitOf(rest[0], 10) || rest[0] == 'x' || rest[0] == 'X')
    ensures Parse("-" + (Decimal(n) + rest)) == Some(-(n as int))
  {
    var s := "-" + (Decimal(n) + rest);
    assert s[0] == '-' && !IsWhiteSpace('-');
    assert TrimStart(s) == s;
    assert s[1..] == Decimal(n) + rest;
    MagnitudeOfDecimal(n, rest);
  }

  /** A leading `+` is dropped: the numeral after it is read as it is. */
  lemma ParsePlusDecimal(n: nat, rest: string)
    requires |rest| == 0 || !(IsDigitOf(rest[0], 10) || rest[0] == 'x' || rest[0] == 'X')
    ensures Parse("+" + (Decimal(n) + rest)) == Some(n)
  {
    var s := "+" + (Decimal(n) + rest);
    assert s[0] == '+' && !IsWhiteSpace('+');
    assert TrimStart(s) == s;
    assert s[1..] == Decimal(n) + rest;
    MagnitudeOfDecimal(n, rest);
  }

  /** A `0x` or `0X` prefix switches to radix 16: the hexadecimal digits
      after it are read up to the first character that is not one. */
  lemma ParseHex(x: char, d: string, rest: string)
    requires x == 'x' || x == 'X'
    requires |d| > 0 && AllDigits(d, 16)
    requires |rest| == 0 || !IsDigitOf(rest[0], 16)
    ensures Parse(['0', x] + (d + rest)) == Some(ValueOf(d, 16))
  {
    var s := ['0', x] + (d + rest);
    assert s[0] == '0' && !IsWhiteSpace('0');
    assert TrimStart(s) == s;
    assert SignStripped(s) == s;
    assert HasHexPrefix(s);
    assert PrefixStripped(s) == d + rest && RadixOf(s) == 16;
    DigitRunOfAppend(d, rest, 16);
    assert (d + rest)[..|d|] == d;
  }

  /** A hexadecimal prefix with no hexadecimal digit after it is `NaN`,
      not 0: the `0` belongs to the prefix. */
  lemma ParseHexWithoutDigits(x: char, rest: string)
    requires x == 'x' || x == 'X'
    requires |rest| == 0 || !IsDigitOf(rest[0], 16)
    ensures Parse(['0', x] + rest) == None
  {
    var s := ['0', x] + rest;
    assert s[0] == '0' && !IsWhiteSpace('0');
    assert TrimStart(s) == s;
    assert SignStripped(s) == s;
    assert HasHexPrefix(s);
    assert PrefixStripped(s) == rest && RadixOf(s) == 16;
  }

  /** A string that starts with neither white space, a sign nor a digit is
      `NaN`. */
  lemma ParseNonNumeric(s: string)
    requires |s| == 0 || !(IsDigitOf(s[0], 10) || IsWhiteSpace(s[0]) || s[0] == '+' || s[0] == '-')
    ensures Parse(s) == None
  {
    assert TrimStart(s) == s;
    assert SignStripped(s) == s;
    assert PrefixStripped(s) == s && RadixOf(s) == 10;
  }

  lemma DigitIsNotWhiteSpace(c: char)
    requires IsDigitOf(c, 10)
    ensures !IsWhiteSpace(c)
  {
  }

  /** Leading white space never changes what `parseInt` reads. */
  lemma ParseSkipsWhiteSpace(ws: string, s: string)
    requires forall i :: 0 <= i < |ws| ==> IsWhiteSpace(ws[i])
    ensures Parse(ws + s) == Parse(s)
  {
    TrimStartAppend(ws, s);
  }

  lemma {:induction false} TrimStartAppend(ws: string, s: string)
    requires forall i :: 0 <= i < |ws| ==> IsWhiteSpace(ws[i])
    ensures TrimStart(ws + s) == TrimStart(s)
  {
    if |ws| > 0 {
      var x := ws + s;
      assert x[0] == ws[0];
      assert TrimStart(x) == TrimStart(x[1..]);
      assert x[1..] == ws[1..] + s;
      TrimStartAppend(ws[1..], s);
    } else {
      assert ws + s == s;
    }
  }
}

=== FILE: sheet.dfy ===
/** The reply of the spreadsheet service and its projection onto the roster. */
module Sheet {
  import opened Wrappers

  /** One spreadsheet row as the service returns it: its cells' text, with
      trailing empty cells omitted, so an empty row is `[]`. */
  type Row = seq<string>

  /** A roster entry: a row's first cell, `None` where the row has no cell
      (JavaScript's `undefined`, stored as `null` once serialised). */
  type Cell = Option<string>

  /** What the ranged read hands to its callback: a transport error, or the
      rows of the range. */
  datatype SheetReply = TransportError | Values(rows: seq<Row>)

  /** Replies after which `fetchGoogleSheet` settles its promise. With zero
      rows it never settles, so those replies are outside the model. */
  predicate Settles(reply: SheetReply) {
    reply.TransportError? || |reply.rows| > 0
  }

  function FirstCell(row: Row): (c: Cell) {
    if |row| == 0 then None else Some(row[0])
  }

  /** `rows.map(row => row[0])`: one entry per row, in row order, empty rows
      kept. */
  function ProjectRows(rows: seq<Row>): (cells: seq<Cell>)
    ensures |cells| == |rows|
    ensures forall i :: 0 <= i < |rows| ==> cells[i] == FirstCell(rows[i])
  {
    if |rows| == 0 then [] else [FirstCell(rows[0])] + ProjectRows(rows[1..])
  }

  /** `fetchGoogleSheet`: an error becomes the empty list; rows become their
      first cells. The result is empty exactly when the read failed. */
  function FetchGoogleSheet(reply: SheetReply): (names: seq<Cell>)
    requires Settles(reply)
    ensures |names| == 0 <==> reply.TransportError?
    ensures reply.Values? ==> |names| == |reply.rows|
    ensures reply.Values? ==> forall i :: 0 <= i < |names| ==>
      (names[i].Some? <==> |reply.rows[i]| > 0) &&
      (names[i].Some? ==> names[i].value == reply.rows[i][0])
  {
    match reply
    case TransportError => []
    case Values(rows) => ProjectRows(rows)
  }
}

=== FILE: wrappers.dfy ===
/** Option, the model's stand-in for JavaScript's `undefined`/`null` and for a
    file that is absent. */
module Wrappers {

  datatype Option<+T> = None | Some(value: T) {

    /** The encapsulated value, or `default` when there is none. */
    function GetOr(default: T): (r: T)
      ensures Some? ==> r == value
      ensures None? ==> r == default
    {
      match this
      case Some(v) => v
      case None => default
    }
  }
}
